=== FILE: README.md ===
# Range filter and cached zip fetch, modelled in Dafny

The repository is a set of helpers for an exploratory data-analysis workflow.
Two of them hold logic of their own, and those two are modelled here:

- `drop_impossible_values` (`src/features/helpers.py`) filters a data frame.
  For every column that has an entry in a constraint mapping, it keeps only the
  rows whose value lies between that entry's `"min"` and `"max"`, both bounds
  inclusive (the default of pandas `Series.between`). The model is in
  `range_filter.dfy`, module `RangeFilter`. A table is its column labels plus a
  sequence of rows. A row maps column names to `Option<int>` cells, and `None`
  stands for NaN, which never lies between two bounds. A column missing from a
  row's map also reads as NaN. The per-column loop is `ApplyConstraints`. It is
  proved equal to one filter by the conjunction of all applicable bounds (`Keep`).
- `download_extract_zip` (`src/data/helpers.py`) keeps a local copy of a zip
  archive's contents. The model is in `zip_fetch.dfy`, module `ZipFetch`. It is
  a transition over an abstract filesystem, the `World`: the set of paths that
  exist. The fetch's answer (status code, plus the archive the payload decodes
  to, with its member names and what `testzip()` reports) is an input to the
  transition. The result records the filesystem afterwards, the calls made in
  order (`Get`, `MakeDirs`, `ExtractAll`) and the error raised, if any.
  `MustDownload` models the existence-check loop with its early `break`.

`wrappers.dfy` holds the `Option`, `Result` and `Outcome` datatypes both use.

Edge cases the code settles, and the model with it:

- The expected names may be empty. The code then finds nothing missing and
  returns without fetching.
- A successful call does not guarantee that every expected name is present.
  The code only extracts the archive's members. It never checks that the
  expected names are among them (`ExpectedNamesNotChecked`).
- A constrained column whose bounds lack `"min"` or `"max"` raises `KeyError`
  from the lookup. The model returns that error (`Err(KeyError(column, key))`)
  rather than forbidding such input. `"min"` is looked up before `"max"`, and
  the first such column in column order is the one reported. Columns visited
  before it have already narrowed the rows, but that frame is discarded.
- `os.path.exists("")` is false and `os.makedirs("")` raises
  `FileNotFoundError`. So an empty target path, with some expected file
  missing, fails after the fetch. The model returns `MakeDirsFailed` there.

## Model

| member | source | states |
|---|---|---|
| RangeFilter.DropImpossibleValues | src/features/helpers.py:8-32 | The result keeps the column labels unchanged. Its rows are a subsequence of the input rows, in order. Every kept row meets every bound of a constrained column, and every input row that meets them all is kept, as many times as it occurs in the input. It fails exactly when some constrained column of the table lacks "min" or "max", and then names the first such column in column order and a key its bounds lack, reporting "max" only when "min" is present. |
| RangeFilter.ApplyConstraints | src/features/helpers.py:27-31 | The loop over the columns succeeds exactly when every constrained column it visits has both bounds. A failure names the first constrained column, in visiting order, whose bounds lack a key, and names that key ("min" or "max"). "max" is reported only when "min" is present. |
| RangeFilter.KeepIsExactFilter | src/features/helpers.py:29-31 | The boolean-mask selection keeps a subsequence of the rows in order. Every kept row meets the bounds. A row that meets them is kept as many times as it occurs, and any other row not at all. |
| RangeFilter.KeepIsSubsequence | src/features/helpers.py:29-31 | The kept rows are the input rows with some removed, the rest in their original order. |
| RangeFilter.KeepCounts | src/features/helpers.py:29-31 | Each row occurs in the result as often as in the input if it meets the bounds, and otherwise not at all. |
| RangeFilter.KeepCons | src/features/helpers.py:29-31 | The selection decides each row on its own: a leading row is kept exactly when it meets the bounds, and the rest is filtered independently. |
| RangeFilter.EqualRowsBothKept | src/features/helpers.py:29-31 | Two equal rows that meet the bounds are both kept. Rows are never merged, as pandas keeps them under their own index labels. |
| RangeFilter.ApplyIsConjunction | src/features/helpers.py:27-31 | With all bounds present, the sequential per-column loop returns exactly the rows that one filter by the conjunction of all applicable bounds keeps. |
| RangeFilter.KeepThenKeep | src/features/helpers.py:29-31 | Filtering by one set of columns and then by another is the same as one filter by both together. This is the step from one loop iteration to the next. |
| RangeFilter.KeepSameConstrainedColumns | src/features/helpers.py:27-28 | Two column lists with the same constrained columns, as sets, keep the same rows, whatever their order or repetitions. |
| RangeFilter.KeepWhenAllSatisfy | src/features/helpers.py:29-31 | A filter that every row passes returns the rows unchanged. |
| RangeFilter.SatisfiesAppend | src/features/helpers.py:27-31 | Meeting the bounds of two column lists together is meeting the bounds of each. |
| RangeFilter.DropIdempotent | src/features/helpers.py:27-32 | Applying the filter to its own result gives the same result. |
| RangeFilter.ColumnOrderIrrelevant | src/features/helpers.py:27-31 | A table with the same column labels in another order keeps the same rows. |
| RangeFilter.KeepAgree | src/features/helpers.py:28-30 | Two constraint mappings that agree on the filtered columns keep the same rows. |
| RangeFilter.ApplyAgree | src/features/helpers.py:27-30 | The loop only consults the constraints of the table's own columns. Mappings that agree on them give the same rows or the same error. |
| RangeFilter.ConstraintsOnAbsentColumnsIgnored | src/features/helpers.py:27-28 | Adding constraint entries for columns the table lacks changes neither the kept rows nor the error. |
| RangeFilter.UnconstrainedCellIrrelevant | src/features/helpers.py:28 | Changing a row's cell in a column without a constraint never changes whether the row is kept. |
| RangeFilter.NoConstrainedColumnKeepsAll | src/features/helpers.py:27-28 | A table none of whose columns is constrained comes back unchanged. |
| RangeFilter.AgeBoundsAreInclusive | src/features/helpers.py:19-30 | Under {"age": {"min": 18, "max": 60}}, ages 18 and 60 are kept. Ages 17 and 61 and a missing age are dropped. The unconstrained "id" column drops nothing. |
| RangeFilter.AgeOnlyDecides | src/features/helpers.py:19-30 | Under {"age": {"min": 18, "max": 60}} on the columns "id" and "age", a row passes exactly when its age is a number between 18 and 60 inclusive. |
| RangeFilter.AgeFilterKeepsInRange | src/features/helpers.py:19-30 | Of any five rows aged 17, 18, 60, 61 and NaN, whatever their other cells, the filter by that bound keeps the rows aged 18 and 60, in order. |
| RangeFilter.AgeFilterStep | src/features/helpers.py:19-30 | Under that bound, a row is kept ahead of the filtered rest exactly when its age is a number from 18 to 60. |
| ZipFetch.EnsureTarget | src/data/helpers.py:58-61 | Afterwards the target exists. A target that already existed leaves the filesystem unchanged. Otherwise every missing ancestor of the target is created, as `os.makedirs` creates missing parents. Nothing disappears, and the only new paths are the target and its ancestors. |
| ZipFetch.ExtractMembers | src/data/helpers.py:63-65 | Afterwards every archive member exists under the target. Existing paths stay, and the only new paths are the members' paths. |
| ZipFetch.MustDownload | src/data/helpers.py:31-39 | The flag is set exactly when some expected file is missing under the target. Breaking at the first missing file does not change this. |
| ZipFetch.DownloadExtractZip | src/data/helpers.py:11-66 | If no expected file is missing (also when there are none), nothing is fetched and the filesystem is unchanged. Otherwise exactly one fetch is issued, and it is the first call. The call succeeds exactly when nothing is missing, or when the status is 200, the integrity check names no member and the target path is not empty. Every error is one of the three, naming the URL or the target. Any status other than 200 raises the download error. With status 200, an archive whose integrity check names a member raises the extract error. Both errors come before any directory is created or anything is extracted, and leave the filesystem unchanged. An empty target path, which `os.makedirs` cannot create, fails after the fetch and the attempted directory creation, and also leaves the filesystem unchanged. On success the target exists, is created only if absent, and holds every archive member. Paths that existed before still exist. When the target was absent, every ancestor of it exists afterwards. The only new paths are the members, plus the target and its ancestors when the target was absent; an existing target gains no ancestor paths. The calls made are exactly the fetch, then the directory creation if the target was absent, then the extraction. |
| ZipFetch.SecondCallSkips | src/data/helpers.py:33-65 | After a successful call whose archive holds every expected name, a second call fetches nothing and changes nothing, whatever the server would answer. |
| ZipFetch.ExpectedNamesNotChecked | src/data/helpers.py:52-65 | An archive lacking an expected name is still extracted without error. The file stays missing, so the next call fetches again. |
| ZipFetch.EmptyNameIsTargetItself | src/data/helpers.py:33-44 | An empty expected name joins to the target itself, so once the target exists the call fetches nothing and changes nothing. |

## Left out

- `src/visualization/helpers.py` as a whole: it renders plots through plotly and matplotlib. Its statistics come from scipy, sklearn and numpy, and its only local computations are float percentages and trivial guards.
- Floating-point cells: cells are integers, and NaN is `None`. Float bounds and float comparison are not modelled.
- Duplicate column labels in a data frame are not modelled. In pandas, `dataframe[col]` would then be a data frame rather than a series.
- The default value `constraints=dict[...]` is a typing alias, not a mapping. The model takes the constraint mapping as a required argument.
- HTTP (`requests.get`), zip decoding, compression and CRC checking are not modelled. Their results are inputs: the response's status and the archive it decodes to. `BadZipFile` on a payload that is not a zip archive is library behaviour and is left out.
- `os.path.join` path semantics are modelled only in part: a path is a sequence of segments, joining appends one, and joining an empty name gives the directory itself. Absolute or multi-segment names are left out, and so is the distinction between files and directories.
- Exceptions raised by `requests.get` itself (connection errors, time-outs) are not modelled: the model always receives a response.
- File contents are not modelled: the filesystem records only which paths exist. That `extractall` overwrites existing files with the archive's contents is not stated.
- The data frame's row index is not modelled: rows carry no index labels, so the labels the filtered frame keeps are not stated. The result's multiplicities and order are stated instead.
- Non-numeric cells in a constrained column make `between` raise `TypeError`. This is not modelled: every cell is an integer or NaN.
- Filesystem errors inside `os.makedirs` and `extractall` are not modelled (permissions, a file where a directory is expected, partial extraction). The one exception is `os.makedirs("")`. A successful extraction is all-or-nothing in the model.
- Logging calls have no effect on the result and are left out.
- Concurrent calls racing on the same target directory are left out. The function does not guard against them.

=== FILE: range_filter.dfy ===
/**
  Model of `drop_impossible_values`: for every column of a table that has an
  entry in the constraint mapping, keep only the rows whose cell lies between
  that entry's "min" and "max" (both inclusive, as pandas `Series.between`
  does by default). A missing cell (NaN) is never between two bounds.
 */
module RangeFilter {
  import opened Wrappers

  type Column = string
  /** A cell of a numeric column; `None` stands for NaN. */
  type Cell = Option<int>
  /** A row maps column names to cells; a column the map lacks reads as NaN. */
  type Row = map<Column, Cell>
  /** The bound mapping of one column, e.g. {"min": 18, "max": 60}. */
  type Bounds = map<string, int>
  type Constraints = map<Column, Bounds>

  const MinKey: string := "min"
  const MaxKey: string := "max"

  /** A data frame: its column labels in order and its rows in order. */
  datatype Table = Table(columns: seq<Column>, rows: seq<Row>)

  /** The `KeyError` raised when a constrained column's bounds lack `key`. */
  datatype KeyError = KeyError(column: Column, key: string)

  function CellOf(row: Row, c: Column): Cell {
    if c in row then row[c] else None
  }

  /** `Series.between(lo, hi)` on one cell: inclusive on both sides, false on NaN. */
  predicate Between(v: Cell, lo: int, hi: int) {
    v.Some? && lo <= v.value <= hi
  }

  /** Looking up column `c`'s bounds cannot fail. */
  predicate HasBounds(cs: Constraints, c: Column) {
    c in cs ==> MinKey in cs[c] && MaxKey in cs[c]
  }

  /** Every constrained column among `cols` names both of its bounds. */
  predicate BoundsPresent(cols: seq<Column>, cs: Constraints) {
    forall c | c in cols :: HasBounds(cs, c)
  }

  /** Column `c` lets `row` through: it is unconstrained, or its cell is in range. */
  predicate Admits(cs: Constraints, c: Column, row: Row)
    requires HasBounds(cs, c)
  {
    c in cs ==> Between(CellOf(row, c), cs[c][MinKey], cs[c][MaxKey])
  }

  /** `row` meets every bound that applies to one of the columns `cols`. */
  predicate Satisfies(row: Row, cols: seq<Column>, cs: Constraints)
    requires BoundsPresent(cols, cs)
  {
    forall c | c in cols :: Admits(cs, c, row)
  }

  /** `a` is `b` with some elements removed, the rest in their original order. */
  predicate IsSubsequence<T(==)>(a: seq<T>, b: seq<T>)
    decreases |b|
  {
    if b == [] then a == []
    else (|a| > 0 && a[0] == b[0] && IsSubsequence(a[1..], b[1..])) || IsSubsequence(a, b[1..])
  }

  /**
    The rows of `rows` that satisfy every bound applying to `cols`, in order,
    each as many times as it occurs (equal rows of a data frame differ only in
    their index labels, and each is kept or dropped on its own).
    With `cols == [c]` this is one boolean-mask selection
    `dataframe[dataframe[c].between(min, max)]`.
   */
  function Keep(rows: seq<Row>, cols: seq<Column>, cs: Constraints): seq<Row>
    requires BoundsPresent(cols, cs)
  {
    if rows == [] then []
    else (if Satisfies(rows[0], cols, cs) then [rows[0]] else []) + Keep(rows[1..], cols, cs)
  }

  /** Filtering a row followed by more rows: the row is kept or dropped, then the rest is filtered. */
  lemma KeepCons(r: Row, rows: seq<Row>, cols: seq<Column>, cs: Constraints)
    requires BoundsPresent(cols, cs)
    ensures Keep([r] + rows, cols, cs)
              == (if Satisfies(r, cols, cs) then [r] else []) + Keep(rows, cols, cs)
  {
    assert ([r] + rows)[1..] == rows;
  }

  /** The kept rows are the input rows with some removed, the rest in order. */
  lemma {:induction false} KeepIsSubsequence(rows: seq<Row>, cols: seq<Column>, cs: Constraints)
    requires BoundsPresent(cols, cs)
    ensures IsSubsequence(Keep(rows, cols, cs), rows)
  {
    if rows != [] {
      KeepIsSubsequence(rows[1..], cols, cs);
      var rest := Keep(rows[1..], cols, cs);
      if Satisfies(rows[0], cols, cs) {
        assert Keep(rows, cols, cs) == [rows[0]] + rest;
        assert ([rows[0]] + rest)[1..] == rest;
      } else {
        assert Keep(rows, cols, cs) == rest;
      }
    }
  }

  /** A row meeting the bounds is kept as often as it occurs; any other row never. */
  lemma {:induction false} KeepCounts(rows: seq<Row>, cols: seq<Column>, cs: Constraints)
    requires BoundsPresent(cols, cs)
    ensures forall x :: multiset(Keep(rows, cols, cs))[x] == (if Satisfies(x, cols, cs) then multiset(rows)[x] else 0)
  {
    if rows != [] {
      KeepCounts(rows[1..], cols, cs);
      assert rows == [rows[0]] + rows[1..];
    }
  }

  /** Two equal rows that meet the bounds are both kept: rows are dropped one by one, never merged. */
  lemma EqualRowsBothKept(r: Row, cols: seq<Column>, cs: Constraints)
    requires BoundsPresent(cols, cs) && Satisfies(r, cols, cs)
    ensures Keep([r, r], cols, cs) == [r, r]
  {
    KeepCons(r, [r], cols, cs);
    KeepCons(r, [], cols, cs);
    assert [r, r] == [r] + ([r] + []);
  }

  /**
    `Keep` is exactly the filter: its result is a subsequence of the rows, every
    kept row meets the bounds, and every row occurs in it as often as in the
    input when it meets them, and not at all otherwise.
   */
  lemma KeepIsExactFilter(rows: seq<Row>, cols: seq<Column>, cs: Constraints)
    requires BoundsPresent(cols, cs)
    ensures IsSubsequence(Keep(rows, cols, cs), rows)
    ensures forall r | r in Keep(rows, cols, cs) :: Satisfies(r, cols, cs)
    ensures forall r | r in rows && Satisfies(r, cols, cs) :: r in Keep(rows, cols, cs)
    ensures forall x :: multiset(Keep(rows, cols, cs))[x] == (if Satisfies(x, cols, cs) then multiset(rows)[x] else 0)
  {
    KeepIsSubsequence(rows, cols, cs);
    KeepCounts(rows, cols, cs);
    forall r | r in Keep(rows, cols, cs) ensures Satisfies(r, cols, cs) {
      assert multiset(Keep(rows, cols, cs))[r] > 0;
    }
    forall r | r in rows && Satisfies(r, cols, cs) ensures r in Keep(rows, cols, cs) {
      assert multiset(rows)[r] > 0;
    }
  }

  /**
    The `for col in dataframe.columns` loop, one column per call: a column
    without a constraint is skipped, a constrained one first looks up "min",
    then "max", then narrows the rows to those it admits.
   */
  function ApplyConstraints(cols: seq<Column>, rows: seq<Row>, cs: Constraints): (r: Result<seq<Row>, KeyError>)
    ensures r.Ok? <==> BoundsPresent(cols, cs)
    ensures r.Err? ==> r.error.column in cols && r.error.column in cs
                       && r.error.key in {MinKey, MaxKey} && r.error.key !in cs[r.error.column]
    ensures r.Err? && r.error.key == MaxKey ==> MinKey in cs[r.error.column]
    ensures r.Err? ==> exists i | 0 <= i < |cols| :: cols[i] == r.error.column && BoundsPresent(cols[..i], cs)
    decreases |cols|
  {
    if cols == [] then Ok(rows)
    else
      var c := cols[0];
      BoundsPresentCons(cols, cs);
      if !HasBounds(cs, c) then
        assert cols[..0] == [];
        if MinKey !in cs[c] then Err(KeyError(c, MinKey)) else Err(KeyError(c, MaxKey))
      else
        var r := ApplyConstraints(cols[1..], if c in cs then Keep(rows, [c], cs) else rows, cs);
        if r.Err? then FirstOffenderCons(cols, cs, r.error.column); r else r
  }

  lemma BoundsPresentCons(cols: seq<Column>, cs: Constraints)
    requires cols != []
    ensures cols[0] in cols
    ensures BoundsPresent(cols, cs) <==> HasBounds(cs, cols[0]) && BoundsPresent(cols[1..], cs)
  {
    assert forall d :: d in cols <==> d == cols[0] || d in cols[1..];
  }

  /** A first offender after a well-formed head is the first offender of the whole list. */
  lemma FirstOffenderCons(cols: seq<Column>, cs: Constraints, col: Column)
    requires cols != [] && HasBounds(cs, cols[0])
    requires exists i | 0 <= i < |cols[1..]| :: cols[1..][i] == col && BoundsPresent(cols[1..][..i], cs)
    ensures exists i | 0 <= i < |cols| :: cols[i] == col && BoundsPresent(cols[..i], cs)
  {
    var i :| 0 <= i < |cols[1..]| && cols[1..][i] == col && BoundsPresent(cols[1..][..i], cs);
    assert cols[..i + 1] == [cols[0]] + cols[1..][..i];
    assert cols[i + 1] == col;
  }

  /**
    `drop_impossible_values(dataframe, constraints)`: the columns are kept, and
    only rows are dropped, exactly those failing an applicable bound. A
    constrained column whose bounds lack "min" or "max" raises `KeyError`.
   */
  function DropImpossibleValues(t: Table, cs: Constraints): (r: Result<Table, KeyError>)
    ensures r.Ok? <==> BoundsPresent(t.columns, cs)
    ensures r.Ok? ==> r.value.columns == t.columns
    ensures r.Ok? ==> IsSubsequence(r.value.rows, t.rows)
    ensures r.Ok? ==> forall row | row in r.value.rows :: Satisfies(row, t.columns, cs)
    ensures r.Ok? ==> forall row | row in t.rows && Satisfies(row, t.columns, cs) :: row in r.value.rows
    ensures r.Ok? ==> forall x :: multiset(r.value.rows)[x] ==
                        (if Satisfies(x, t.columns, cs) then multiset(t.rows)[x] else 0)
    ensures r.Err? ==> r.error.column in t.columns && r.error.column in cs
                       && r.error.key in {MinKey, MaxKey} && r.error.key !in cs[r.error.column]
    ensures r.Err? && r.error.key == MaxKey ==> MinKey in cs[r.error.column]
    ensures r.Err? ==> exists i | 0 <= i < |t.columns| ::
                         t.columns[i] == r.error.column && BoundsPresent(t.columns[..i], cs)
  {
    var applied := ApplyConstraints(t.columns, t.rows, cs);
    if applied.Err? then Err(applied.error)
    else
      ApplyIsConjunction(t.columns, t.rows, cs);
      KeepIsExactFilter(t.rows, t.columns, cs);
      Ok(Table(t.columns, applied.value))
  }

  /** Meeting the bounds of `a + b` is meeting those of `a` and those of `b`. */
  lemma SatisfiesAppend(row: Row, a: seq<Column>, b: seq<Column>, cs: Constraints)
    requires BoundsPresent(a + b, cs)
    ensures BoundsPresent(a, cs) && BoundsPresent(b, cs)
    ensures Satisfies(row, a + b, cs) <==> Satisfies(row, a, cs) && Satisfies(row, b, cs)
  {
  }

  /** Only the constrained columns among `cols`, as a set, decide what is kept. */
  lemma {:induction false} KeepSameConstrainedColumns(rows: seq<Row>, a: seq<Column>, b: seq<Column>, cs: Constraints)
    requires BoundsPresent(a, cs) && BoundsPresent(b, cs)
    requires forall c :: (c in a && c in cs) <==> (c in b && c in cs)
    ensures Keep(rows, a, cs) == Keep(rows, b, cs)
  {
    if rows != [] {
      KeepSameConstrainedColumns(rows[1..], a, b, cs);
      assert Satisfies(rows[0], a, cs) == Satisfies(rows[0], b, cs) by {
        forall c | c in a ensures Admits(cs, c, rows[0]) == (c !in cs || Admits(cs, c, rows[0])) { }
        if Satisfies(rows[0], a, cs) {
          forall c | c in b ensures Admits(cs, c, rows[0]) {
            if c in cs { assert c in a; }
          }
        }
        if Satisfies(rows[0], b, cs) {
          forall c | c in a ensures Admits(cs, c, rows[0]) {
            if c in cs { assert c in b; }
          }
        }
      }
    }
  }

  /** A filter that every row passes drops nothing. */
  lemma {:induction false} KeepWhenAllSatisfy(rows: seq<Row>, cols: seq<Column>, cs: Constraints)
    requires BoundsPresent(cols, cs)
    requires forall r | r in rows :: Satisfies(r, cols, cs)
    ensures Keep(rows, cols, cs) == rows
  {
    if rows != [] {
      assert rows[0] in rows;
      assert forall r | r in rows[1..] :: r in rows;
      KeepWhenAllSatisfy(rows[1..], cols, cs);
      assert rows == [rows[0]] + rows[1..];
    }
  }

  /** Filtering by `a` and then by `b` is one filter by the conjunction of both. */
  lemma {:induction false} KeepThenKeep(rows: seq<Row>, a: seq<Column>, b: seq<Column>, cs: Constraints)
    requires BoundsPresent(a + b, cs)
    ensures BoundsPresent(a, cs) && BoundsPresent(b, cs)
    ensures Keep(Keep(rows, a, cs), b, cs) == Keep(rows, a + b, cs)
  {
    SatisfiesAppend(if rows == [] then map[] else rows[0], a, b, cs);
    if rows != [] {
      KeepThenKeep(rows[1..], a, b, cs);
      var rest := Keep(rows[1..], a, cs);
      assert rows == [rows[0]] + rows[1..];
      KeepCons(rows[0], rows[1..], a + b, cs);
      if Satisfies(rows[0], a, cs) {
        assert Keep(rows, a, cs) == [rows[0]] + rest;
        KeepCons(rows[0], rest, b, cs);
      } else {
        assert Keep(rows, a, cs) == rest;
      }
    }
  }

  /**
    The sequential per-column loop equals one filter by the conjunction of all
    applicable bounds.
   */
  lemma {:induction false} ApplyIsConjunction(cols: seq<Column>, rows: seq<Row>, cs: Constraints)
    requires BoundsPresent(cols, cs)
    ensures ApplyConstraints(cols, rows, cs) == Ok(Keep(rows, cols, cs))
    decreases |cols|
  {
    if cols == [] {
      KeepWhenAllSatisfy(rows, cols, cs);
    } else {
      var c := cols[0];
      assert cols == [c] + cols[1..];
      assert BoundsPresent(cols[1..], cs) by {
        forall d | d in cols[1..] ensures d in cols { }
      }
      if c !in cs {
        ApplyIsConjunction(cols[1..], rows, cs);
        KeepSameConstrainedColumns(rows, cols[1..], cols, cs);
        assert ApplyConstraints(cols, rows, cs) == ApplyConstraints(cols[1..], rows, cs);
      } else {
        ApplyIsConjunction(cols[1..], Keep(rows, [c], cs), cs);
        KeepThenKeep(rows, [c], cols[1..], cs);
        assert ApplyConstraints(cols, rows, cs) == ApplyConstraints(cols[1..], Keep(rows, [c], cs), cs);
        assert Keep(Keep(rows, [c], cs), cols[1..], cs) == Keep(rows, cols, cs);
      }
    }
  }

  /** `cs1` and `cs2` constrain the columns `cols` identically. */
  predicate AgreeOn(cols: seq<Column>, cs1: Constraints, cs2: Constraints) {
    forall c | c in cols :: (c in cs1 <==> c in cs2) && (c in cs1 ==> cs1[c] == cs2[c])
  }

  /** Filtering the rows twice gives the same table as filtering them once. */
  lemma DropIdempotent(t: Table, cs: Constraints)
    requires DropImpossibleValues(t, cs).Ok?
    ensures DropImpossibleValues(DropImpossibleValues(t, cs).value, cs) == DropImpossibleValues(t, cs)
  {
    var once := DropImpossibleValues(t, cs).value;
    ApplyIsConjunction(t.columns, t.rows, cs);
    ApplyIsConjunction(once.columns, once.rows, cs);
    KeepWhenAllSatisfy(once.rows, t.columns, cs);
  }

  /**
    The order in which the columns are visited does not matter: a table with
    the same column labels in any other order keeps the same rows.
   */
  lemma ColumnOrderIrrelevant(t: Table, reordered: seq<Column>, cs: Constraints)
    requires forall c :: c in t.columns <==> c in reordered
    requires DropImpossibleValues(t, cs).Ok?
    ensures DropImpossibleValues(Table(reordered, t.rows), cs) == Ok(Table(reordered, DropImpossibleValues(t, cs).value.rows))
  {
    ApplyIsConjunction(t.columns, t.rows, cs);
    ApplyIsConjunction(reordered, t.rows, cs);
    KeepSameConstrainedColumns(t.rows, t.columns, reordered, cs);
  }

  /** Filters by one column under constraint maps that agree on it coincide. */
  lemma {:induction false} KeepAgree(rows: seq<Row>, cols: seq<Column>, cs1: Constraints, cs2: Constraints)
    requires AgreeOn(cols, cs1, cs2) && BoundsPresent(cols, cs1)
    ensures BoundsPresent(cols, cs2)
    ensures Keep(rows, cols, cs1) == Keep(rows, cols, cs2)
  {
    if rows != [] {
      KeepAgree(rows[1..], cols, cs1, cs2);
      assert Satisfies(rows[0], cols, cs1) == Satisfies(rows[0], cols, cs2) by {
        forall c | c in cols ensures Admits(cs1, c, rows[0]) == Admits(cs2, c, rows[0]) { }
      }
    }
  }

  /** The loop only ever consults the constraints of the table's own columns. */
  lemma {:induction false} ApplyAgree(cols: seq<Column>, rows: seq<Row>, cs1: Constraints, cs2: Constraints)
    requires AgreeOn(cols, cs1, cs2)
    ensures ApplyConstraints(cols, rows, cs1) == ApplyConstraints(cols, rows, cs2)
    decreases |cols|
  {
    if cols != [] {
      var c := cols[0];
      assert c in cols;
      assert AgreeOn(cols[1..], cs1, cs2) by {
        forall d | d in cols[1..] ensures d in cols { }
      }
      if c in cs1 && MinKey in cs1[c] && MaxKey in cs1[c] {
        KeepAgree(rows, [c], cs1, cs2);
        ApplyAgree(cols[1..], Keep(rows, [c], cs1), cs1, cs2);
      } else {
        ApplyAgree(cols[1..], rows, cs1, cs2);
      }
    }
  }

  /**
    Constraint entries for columns the table does not have change nothing,
    neither the rows kept nor the error raised.
   */
  lemma ConstraintsOnAbsentColumnsIgnored(t: Table, cs: Constraints, extra: Constraints)
    requires forall c | c in extra :: c !in t.columns
    ensures DropImpossibleValues(t, cs + extra) == DropImpossibleValues(t, cs)
  {
    assert AgreeOn(t.columns, cs + extra, cs);
    ApplyAgree(t.columns, t.rows, cs + extra, cs);
  }

  /** A value in a column without a constraint never decides whether a row is kept. */
  lemma UnconstrainedCellIrrelevant(row: Row, c: Column, v: Cell, cols: seq<Column>, cs: Constraints)
    requires c !in cs && BoundsPresent(cols, cs)
    ensures Satisfies(row[c := v], cols, cs) == Satisfies(row, cols, cs)
  {
  }

  /** A table none of whose columns is constrained comes back unchanged. */
  lemma NoConstrainedColumnKeepsAll(t: Table, cs: Constraints)
    requires forall c | c in t.columns :: c !in cs
    ensures DropImpossibleValues(t, cs) == Ok(t)
  {
    ApplyIsConjunction(t.columns, t.rows, cs);
    KeepWhenAllSatisfy(t.rows, t.columns, cs);
  }

  /** The example table's columns, rows and constraint: ages between 18 and 60. */
  const ExampleColumns: seq<Column> := ["id", "age"]
  const ExampleRows: seq<Row> :=
    [Person(1, Some(17)), Person(2, Some(18)), Person(3, Some(60)), Person(4, Some(61)), Person(5, None)]
  const AgeBounds: Constraints := map["age" := map[MinKey := 18, MaxKey := 60]]

  /** A row of the example table: an id and an age, either possibly NaN. */
  function Person(id: int, age: Cell): Row {
    map["id" := Some(id), "age" := age]
  }

  /** Under the age bounds a row is kept exactly when its age is in range. */
  lemma AgeOnlyDecides(row: Row)
    ensures BoundsPresent(ExampleColumns, AgeBounds)
    ensures Satisfies(row, ExampleColumns, AgeBounds) <==> Between(CellOf(row, "age"), 18, 60)
  {
    assert "age" in ExampleColumns;
    assert Admits(AgeBounds, "id", row);
  }

  /** One step of the age filter: a row is kept ahead of the rest exactly when its age is in range. */
  lemma AgeFilterStep(r: Row, rest: seq<Row>)
    ensures BoundsPresent(ExampleColumns, AgeBounds)
    ensures Keep([r] + rest, ExampleColumns, AgeBounds)
              == (if Between(CellOf(r, "age"), 18, 60) then [r] else []) + Keep(rest, ExampleColumns, AgeBounds)
  {
    AgeOnlyDecides(r);
    KeepCons(r, rest, ExampleColumns, AgeBounds);
  }

  /**
    Of any five rows aged 17, 18, 60, 61 and NaN, whatever their other cells,
    the filter by the age bounds keeps the rows aged 18 and 60, in order.
   */
  lemma AgeFilterKeepsInRange(rows: seq<Row>)
    requires |rows| == 5
    requires CellOf(rows[0], "age") == Some(17) && CellOf(rows[1], "age") == Some(18)
    requires CellOf(rows[2], "age") == Some(60) && CellOf(rows[3], "age") == Some(61)
    requires CellOf(rows[4], "age") == None
    ensures BoundsPresent(ExampleColumns, AgeBounds)
    ensures Keep(rows, ExampleColumns, AgeBounds) == [rows[1], rows[2]]
  {
    AgeFilterStep(rows[4], []);
    assert rows[4..] == [rows[4]] + [];
    AgeFilterStep(rows[3], rows[4..]);
    assert rows[3..] == [rows[3]] + rows[4..];
    AgeFilterStep(rows[2], rows[3..]);
    assert rows[2..] == [rows[2]] + rows[3..];
    AgeFilterStep(rows[1], rows[2..]);
    assert rows[1..] == [rows[1]] + rows[2..];
    AgeFilterStep(rows[0], rows[1..]);
    assert rows == [rows[0]] + rows[1..];
  }

  /**
    Ages 18 and 60 pass the bound {"min": 18, "max": 60}; 17, 61 and a
    missing age do not; the column "id", having no constraint, filters nothing.
   */
  lemma AgeBoundsAreInclusive()
    ensures DropImpossibleValues(Table(ExampleColumns, ExampleRows), AgeBounds)
              == Ok(Table(ExampleColumns, [Person(2, Some(18)), Person(3, Some(60))]))
  {
    AgeFilterKeepsInRange(ExampleRows);
    ApplyIsConjunction(ExampleColumns, ExampleRows, AgeBounds);
  }
}

=== FILE: wrappers.dfy ===
/** Option, Result and Outcome datatypes shared by the two models. */
module Wrappers {

  /** A value that may be missing: a table cell holding NaN is `None`. */
  datatype Option<+T> = None | Some(value: T)

  /** The value of a computation that either returns or raises `error`. */
  datatype Result<+T, +E> = Ok(value: T) | Err(error: E)

  /** The outcome of a procedure that returns nothing or raises `error`. */
  datatype Outcome<+E> = Pass | Fail(error: E)
}

=== FILE: zip_fetch.dfy ===
/**
  Model of `download_extract_zip`: if every expected file already exists under
  the target directory, return at once; otherwise fetch the archive, reject a
  non-200 status, reject an archive whose integrity check names a bad member,
  create the target directory if it is absent, and extract every member into it.

  The HTTP client, the zip library and `os.path` are not modelled: the fetched
  response (status and the archive its payload decodes to) is an input, the
  filesystem is the set of paths that exist, and a path is a sequence of
  segments, `os.path.join` appending one segment.
 */
module ZipFetch {
  import opened Wrappers

  /** A filesystem path as its segments; `[]` is the empty path "". */
  type Path = seq<string>

  /** The filesystem as the set of paths (files and directories) that exist. */
  datatype World = World(paths: set<Path>)

  /** A zip archive: its member names and what `testzip()` reports. */
  datatype Archive = Archive(members: seq<string>, firstBadMember: Option<string>)

  /** What `requests.get` returns: the status code and the decoded payload. */
  datatype Response = Response(status: int, archive: Archive)

  /** The outward-facing calls the function makes, in the order it makes them. */
  datatype Effect = Get(url: string) | MakeDirs(path: Path) | ExtractAll(path: Path)

  /**
    The errors raised: the two `ValueError`s ("Failed to download <url>",
    "Failed to extract <url>") and the `FileNotFoundError` of `os.makedirs("")`.
   */
  datatype FetchError = DownloadFailed(url: string) | ExtractFailed(url: string) | MakeDirsFailed(path: Path)

  /** One call: the filesystem afterwards, the calls made, and whether it raised. */
  datatype Run = Run(world: World, effects: seq<Effect>, outcome: Outcome<FetchError>)

  const StatusOk: int := 200

  /**
    `os.path.join(dir, name)` for a relative name without separators; an empty
    name joins to the directory itself ("dir/").
   */
  function Join(dir: Path, name: string): (p: Path)
    ensures name == "" ==> p == dir
    ensures name != "" ==> |p| == |dir| + 1 && dir <= p && p[|dir|] == name
  {
    if name == "" then dir else dir + [name]
  }

  /** `os.path.exists(p)`; the empty path never exists. */
  predicate Exists(w: World, p: Path) {
    p != [] && p in w.paths
  }

  /** Some expected file is absent from `target`. */
  predicate AnyMissing(names: seq<string>, target: Path, w: World) {
    exists i | 0 <= i < |names| :: !Exists(w, Join(target, names[i]))
  }

  /**
    The existence-check loop: `must_download` starts false and the loop
    breaks at the first expected file that does not exist.
   */
  method MustDownload(names: seq<string>, target: Path, w: World) returns (must: bool)
    ensures must <==> AnyMissing(names, target, w)
  {
    must := false;
    var i := 0;
    while i < |names|
      invariant 0 <= i <= |names|
      invariant !must
      invariant forall j | 0 <= j < i :: Exists(w, Join(target, names[j]))
    {
      if !Exists(w, Join(target, names[i])) {
        must := true;
        break;
      }
      i := i + 1;
    }
  }

  /** The paths `os.makedirs(p)` leaves existing: every non-empty prefix of `p`. */
  function Ancestors(p: Path): set<Path> {
    set k | 1 <= k <= |p| :: p[..k]
  }

  /**
    "Create the target if it does not exist": afterwards it exists, nothing
    disappeared, and the only new paths are the target and its ancestors.
   */
  function EnsureTarget(w: World, target: Path): (w': World)
    requires target != []
    ensures Exists(w', target)
    ensures w.paths <= w'.paths
    ensures Exists(w, target) ==> w' == w
    ensures !Exists(w, target) ==> Ancestors(target) <= w'.paths
    ensures forall p | p in w'.paths && p !in w.paths :: p in Ancestors(target)
  {
    if Exists(w, target) then w
    else
      assert target == target[..|target|];
      World(w.paths + Ancestors(target))
  }

  /**
    `extractall(target)`: every member exists under the target afterwards,
    existing paths stay, and nothing but the members' paths is added.
   */
  function ExtractMembers(w: World, target: Path, members: seq<string>): (w': World)
    ensures forall m | m in members :: Join(target, m) in w'.paths
    ensures w.paths <= w'.paths
    ensures forall p | p in w'.paths && p !in w.paths ::
              (p == target && "" in members) || (|p| == |target| + 1 && target <= p && p[|target|] in members)
  {
    World(w.paths + set m | m in members :: Join(target, m))
  }

  /** The number of fetches among `effects`. */
  function Fetches(effects: seq<Effect>): nat {
    if effects == [] then 0
    else (if effects[0].Get? then 1 else 0) + Fetches(effects[1..])
  }

  /** A trace that fetches first and never again holds exactly one fetch. */
  lemma {:induction false} OnlyFirstFetches(url: string, rest: seq<Effect>)
    requires forall e | e in rest :: !e.Get?
    ensures Fetches([Get(url)] + rest) == 1
  {
    assert ([Get(url)] + rest)[1..] == rest;
    NoFetches(rest);
  }

  lemma {:induction false} NoFetches(effects: seq<Effect>)
    requires forall e | e in effects :: !e.Get?
    ensures Fetches(effects) == 0
  {
    if effects != [] {
      assert effects[0] in effects;
      assert forall e | e in effects[1..] :: e in effects;
      NoFetches(effects[1..]);
    }
  }

  /**
    One call of `download_extract_zip(url, names, target)` on filesystem `w`,
    `response` being what the fetch would return if it were issued.
   */
  function DownloadExtractZip(url: string, names: seq<string>, target: Path, w: World, response: Response): (run: Run)
    // all expected files present: no fetch, nothing changes
    ensures !AnyMissing(names, target, w) <==> run.effects == []
    ensures !AnyMissing(names, target, w) ==> run.world == w && run.outcome == Pass
    // otherwise exactly one fetch, and it comes first (a summary of the exact
    // call lists stated below for each outcome)
    ensures Fetches(run.effects) == (if AnyMissing(names, target, w) then 1 else 0)
    ensures AnyMissing(names, target, w) ==> run.effects[0] == Get(url)
    // the error cases
    ensures (run.outcome == Fail(DownloadFailed(url))) <==>
              AnyMissing(names, target, w) && response.status != StatusOk
    ensures (run.outcome == Fail(ExtractFailed(url))) <==>
              AnyMissing(names, target, w) && response.status == StatusOk && response.archive.firstBadMember.Some?
    ensures (run.outcome == Fail(MakeDirsFailed(target))) <==>
              AnyMissing(names, target, w) && response.status == StatusOk && response.archive.firstBadMember.None?
              && target == []
    ensures run.outcome.Fail? ==> run.outcome.error in {DownloadFailed(url), ExtractFailed(url), MakeDirsFailed(target)}
    ensures (run.outcome.Fail? && !run.outcome.error.MakeDirsFailed?) ==> run.effects == [Get(url)]
    ensures run.outcome == Fail(MakeDirsFailed(target)) ==> run.effects == [Get(url), MakeDirs(target)]
    ensures run.outcome.Fail? ==> run.world == w
    ensures run.outcome.Fail? ==> forall e | e in run.effects :: !e.ExtractAll?
    // success after a fetch
    ensures run.outcome.Pass? <==>
              !AnyMissing(names, target, w)
              || (response.status == StatusOk && response.archive.firstBadMember.None? && target != [])
    ensures run.outcome.Pass? && AnyMissing(names, target, w) ==>
              && Exists(run.world, target)
              && (forall m | m in response.archive.members :: Exists(run.world, Join(target, m)))
              && w.paths <= run.world.paths
              && (!Exists(w, target) ==> Ancestors(target) <= run.world.paths)
              && (forall p | p in run.world.paths && p !in w.paths ::
                    (!Exists(w, target) && p in Ancestors(target))
                    || (|p| == |target| + 1 && target <= p && p[|target|] in response.archive.members))
    ensures run.outcome.Pass? && AnyMissing(names, target, w) ==>
              run.effects == [Get(url)] + (if Exists(w, target) then [] else [MakeDirs(target)]) + [ExtractAll(target)]
  {
    if !AnyMissing(names, target, w) then Run(w, [], Pass)
    else if response.status != StatusOk then Run(w, [Get(url)], Fail(DownloadFailed(url)))
    else if response.archive.firstBadMember.Some? then Run(w, [Get(url)], Fail(ExtractFailed(url)))
    else if !Exists(w, target) && target == [] then
      OnlyFirstFetches(url, [MakeDirs(target)]);
      Run(w, [Get(url), MakeDirs(target)], Fail(MakeDirsFailed(target)))
    else
      var afterFetch := (if Exists(w, target) then [] else [MakeDirs(target)]) + [ExtractAll(target)];
      OnlyFirstFetches(url, afterFetch);
      var created := EnsureTarget(w, target);
      Run(ExtractMembers(created, target, response.archive.members), [Get(url)] + afterFetch, Pass)
  }

  /**
    The cache works: after a call that succeeds with an archive holding every
    expected name, a second call finds all files present and neither fetches
    nor changes anything, whatever the server would answer.
   */
  lemma SecondCallSkips(url: string, names: seq<string>, target: Path, w: World, response: Response, again: Response)
    requires DownloadExtractZip(url, names, target, w, response).outcome.Pass?
    requires forall i | 0 <= i < |names| :: names[i] in response.archive.members
    ensures
      var after := DownloadExtractZip(url, names, target, w, response).world;
      DownloadExtractZip(url, names, target, after, again) == Run(after, [], Pass)
  {
  }

  /**
    Success does not mean the expected files are there: nothing checks that the
    archive holds them, so an archive lacking "a.txt" is extracted without
    error, "a.txt" is still missing, and the next call fetches again.
   */
  lemma ExpectedNamesNotChecked()
    ensures
      var url := "https://example.org/data.zip";
      var target := ["data"];
      var response := Response(StatusOk, Archive(["b.txt"], None));
      var run := DownloadExtractZip(url, ["a.txt"], target, World({}), response);
      && run.outcome == Pass
      && !Exists(run.world, Join(target, "a.txt"))
      && DownloadExtractZip(url, ["a.txt"], target, run.world, response).effects[0] == Get(url)
  {
  }

  /**
    An empty expected name joins to the target directory itself, so once the
    target exists nothing is fetched for it.
   */
  lemma EmptyNameIsTargetItself(url: string, target: Path, w: World, response: Response)
    requires Exists(w, target)
    ensures DownloadExtractZip(url, [""], target, w, response) == Run(w, [], Pass)
  {
  }
}
